=== FILE: README.md ===
# Shivaay learning assistant — core model

A Dafny model of the non-UI core of the Streamlit study assistant in
`Shivaay_LearningAssistant.py`:

- **Completion client** (`get_ai_response`): the request payload sent to the
  completion endpoint — the fixed system instruction, then the user message
  `"{mode_type}: {user_input}"`, temperature 0.7 and top_p 1 — and the text
  made from the reply: the body's `answer`, the sentinel
  `"No response received."` when the body has none, or
  `"Error during request: …"` when sending or decoding raised.
  (`completion.dfy`)
- **Flashcard parser** (`parse_flashcards`): the response is cut into blocks at
  `"\n\n"` and each block into lines at `"\n"`; a line is a front line when its
  stripped, lower-cased form starts with `front:`, otherwise a back line when
  it starts with `back:`; the value is the raw line with every exact-case
  `Front:` (or `Back:`) removed, then stripped; the last front and back line of
  a block win, and the block yields a card only when both values are
  non-empty. The parser is a nested-loop method proved equal to a declarative
  definition ("the value of the last line carrying the label"), about which the
  properties are proved. (`flashcards.dfy`)
- **Flashcard export** (`format_flashcards_for_download`): entries
  `"{i+1}. {front}\n   {back}"` joined by blank lines. (`export.dfy`)
- **History store** (`add_to_history`, `delete_history_entry`,
  `clear_history` over the session's list): a class with a `seq<Entry>`
  field; deletion of an index outside the list is a silent no-op.
  (`history.dfy`)
- **Download file names** for the quiz and the flashcards. (`downloads.dfy`)
- The Python `str` operations these rely on — `split`, `join`, `strip`,
  `lower`, `replace`, `str(n)` — are written out with Python's semantics in
  `pystr.dfy`, with their own properties (split/join round trips, what strip
  removes, decimal round trip).

Label detection and label removal differ in letter case: a line is detected
as a front or back line whatever the case of its label, but only the
exact-case `Front:` and `Back:` are removed from the value. So a line
`front: X` is a front line whose value keeps its label
(`Flashcards.LowerCaseLabelKept`), while a block written the way the flashcard
prompt (line 203) asks yields the trimmed values (`Flashcards.BlockYieldsCard`).
Whitespace around a labelled line is tolerated
(`Flashcards.PaddedLineClassified`, `Flashcards.PaddedLineCaptured`).

## Model

| member | source | states |
|---|---|---|
| `PyStr.IsSpace` | Shivaay_LearningAssistant.py:178-181 | the whitespace set of `str.isspace()` that `strip()` removes; among ASCII characters exactly 0x09-0x0D, 0x1C-0x1F and the space |
| `PyStr.LStrip` | Shivaay_LearningAssistant.py:178-181 | `lstrip()` (the first half of `strip()`) gives a text no longer than the line that does not start with whitespace; `LStripSpec` adds that it is a suffix whose dropped prefix is all whitespace |
| `PyStr.RStrip` | Shivaay_LearningAssistant.py:178-181 | `rstrip()` gives a text no longer than the line that does not end with whitespace; `RStripSpec` adds that it is a prefix whose dropped suffix is all whitespace |
| `PyStr.LStripSpec` | Shivaay_LearningAssistant.py:178-181 | `lstrip()` removes exactly the leading run of whitespace |
| `PyStr.RStripSpec` | Shivaay_LearningAssistant.py:178-181 | `rstrip()` removes exactly the trailing run of whitespace |
| `PyStr.Strip` | Shivaay_LearningAssistant.py:178-181 | `strip()` gives a text no longer than the line with no whitespace at either end |
| `PyStr.StripSpec` | Shivaay_LearningAssistant.py:178-181 | `strip()` gives the run of the line between a whitespace prefix and a whitespace suffix, with no whitespace at either end, empty exactly when the line is all whitespace |
| `PyStr.StripAround` | Shivaay_LearningAssistant.py:178-181 | whitespace added around a text does not change its `strip()` |
| `PyStr.StripKeepsHead` | Shivaay_LearningAssistant.py:178-180 | a head with no whitespace at its ends survives `strip()` as the start of the result, whatever follows it and whatever whitespace surrounds the line |
| `PyStr.StartsWith` | Shivaay_LearningAssistant.py:178-180 | `startswith` holds only when the prefix is no longer than the text, and always for the empty prefix |
| `PyStr.StartsWithSpec` | Shivaay_LearningAssistant.py:178-180 | `startswith(p)` holds exactly when the text is at least as long as `p` and agrees with it position by position |
| `PyStr.Lower` | Shivaay_LearningAssistant.py:178-180 | `lower()` keeps the length |
| `PyStr.LowerSpec` | Shivaay_LearningAssistant.py:178-180 | `lower()` maps 'A'..'Z' to 'a'..'z' and the Kelvin sign to 'k', leaves no ASCII upper-case letter, and keeps every other character |
| `PyStr.StripPadded` | Shivaay_LearningAssistant.py:179-181 | stripping text surrounded by whitespace runs gives back exactly that text |
| `PyStr.Split` | Shivaay_LearningAssistant.py:171-174 | `split(sep)` gives at least one piece, also for the empty text; which pieces is fixed by `SplitPiecesFree` (no piece holds the separator), `SplitPiecesCleanCut` (every piece but the last ends at the leftmost next occurrence) and `SplitJoin` (pieces with those two properties are the only ones whose join is the text) |
| `PyStr.Join` | Shivaay_LearningAssistant.py:190 | `sep.join(ps)` starts with the first piece; `JoinSplit` and `SplitJoin` make it the inverse of `split` |
| `PyStr.SplitPiecesCleanCut` | Shivaay_LearningAssistant.py:171-174 | every piece of `split(sep)` but the last is a leftmost cut: no occurrence of the separator starts inside it, even reading on into the separator that follows |
| `PyStr.SplitLeftmostExample` | Shivaay_LearningAssistant.py:171 | `"a\n\n\nb".split("\n\n")` is `["a", "\nb"]`: the leftmost blank line is cut and the third line break starts the next block |
| `PyStr.SplitPiecesFree` | Shivaay_LearningAssistant.py:171-174 | no piece of `split(sep)` contains the separator |
| `PyStr.JoinSplit` | Shivaay_LearningAssistant.py:171-174 | joining the pieces of `split(sep)` with `sep` restores the text |
| `PyStr.SplitJoin` | Shivaay_LearningAssistant.py:171-174 | splitting a join gives back the pieces when each piece but the last is cut cleanly before the separator and the last holds none |
| `PyStr.SplitHeadPrefix` | Shivaay_LearningAssistant.py:171 | the first piece of a split is a prefix of the text |
| `PyStr.RemoveAll` | Shivaay_LearningAssistant.py:179-181 | `replace(label, "")` never lengthens the line and leaves a line shorter than the label as it is; `RemoveAllIsConcatOfSplit` ties it to `split` |
| `PyStr.RemoveAllKeepsPrefix` | Shivaay_LearningAssistant.py:179-181 | the removal passes over a leading part in which no occurrence of the label starts |
| `PyStr.RemoveAllPadded` | Shivaay_LearningAssistant.py:179-181 | in a line made of whitespace, the label, a value without the label and whitespace, the removal drops exactly that one label |
| `PyStr.RemoveAllChars` | Shivaay_LearningAssistant.py:179-181 | `replace(label, "")` only drops characters: the result is no longer and all its characters come from the line |
| `PyStr.RemoveAllIsConcatOfSplit` | Shivaay_LearningAssistant.py:179-181 | `s.replace(p, "")` equals `"".join(s.split(p))`: both scan for the same occurrences |
| `PyStr.RemoveAllFree` | Shivaay_LearningAssistant.py:179-181 | a line without the label text is left unchanged by the removal |
| `PyStr.TwoLinesCleanCut` | Shivaay_LearningAssistant.py:171 | a single line joined by one line break to a non-empty single line holds no blank line, even when a blank line follows |
| `PyStr.NatToString` | Shivaay_LearningAssistant.py:190 | `str(i+1)` is non-empty, all decimal digits, with no leading zero |
| `PyStr.DecimalRoundTrip` | Shivaay_LearningAssistant.py:190 | reading the decimal text of a number gives the number back |
| `PyStr.ReplaceChar` | Shivaay_LearningAssistant.py:215 | `replace(' ', '_')` keeps the length and changes exactly the spaces |
| `Flashcards.Classify` | Shivaay_LearningAssistant.py:178-180 | a line classified under a label has a stripped, lower-cased form starting with that label's prefix, and a back line's does not start with `front:` |
| `Flashcards.Capture` | Shivaay_LearningAssistant.py:179-181 | the value taken from a line is no longer than the line and has no whitespace at either end |
| `Flashcards.LastCapture` | Shivaay_LearningAssistant.py:175-181 | the value left for a label after a block's lines has no whitespace at either end; `LastCaptureWins`, `LastCaptureNone` and `LastCaptureFrom` say which line it comes from |
| `Flashcards.Truthy` | Shivaay_LearningAssistant.py:183 | the test `if front and back` is false for `None` and for the empty string and true for every other string |
| `Flashcards.SectionCard` | Shivaay_LearningAssistant.py:174-184 | a block's card, when there is one, has a non-empty and trimmed front and back |
| `Flashcards.CardOf` | Shivaay_LearningAssistant.py:183-184 | a block adds at most one card to the output |
| `Flashcards.CardsOf` | Shivaay_LearningAssistant.py:173-184 | the blocks yield at most one card each, and every card has a non-empty, trimmed front and back |
| `Flashcards.ParsedCards` | Shivaay_LearningAssistant.py:169-186 | a response yields no more cards than blocks, each with a non-empty, trimmed front and back |
| `Flashcards.ScanSection` | Shivaay_LearningAssistant.py:174-181 | the loop over a block's lines ends with the running front and back equal to the values of the last front line and the last back line |
| `Flashcards.ParseFlashcards` | Shivaay_LearningAssistant.py:169-186 | the loop over the blocks computes exactly the declarative parse: one card per block whose last front and back values are non-empty, in block order |
| `Flashcards.ParseEmpty` | Shivaay_LearningAssistant.py:169-186 | the empty response yields no cards |
| `Flashcards.CardsOfAppend` | Shivaay_LearningAssistant.py:173-184 | the cards of a run of blocks are the cards of its parts, in block order |
| `Flashcards.OneCardPerSection` | Shivaay_LearningAssistant.py:173-184 | each block contributes its own card or nothing, at its own place in the output |
| `Flashcards.LastCaptureWins` | Shivaay_LearningAssistant.py:177-181 | the last line carrying a label decides the value, whatever earlier lines said |
| `Flashcards.LastCaptureNone` | Shivaay_LearningAssistant.py:175-181 | nothing is captured for a label exactly when no line of the block carries it |
| `Flashcards.LastCaptureFrom` | Shivaay_LearningAssistant.py:177-181 | a captured value is the extraction of some line carrying the label |
| `Flashcards.SectionCardFromLastLines` | Shivaay_LearningAssistant.py:174-184 | a block's card is made of its last front and last back line, and is dropped when either value is empty, even if an earlier line had a value |
| `Flashcards.NoBackNoCard` | Shivaay_LearningAssistant.py:178-184 | a block without a back line (front lines never count as back lines) yields no card |
| `Flashcards.NoFrontNoCard` | Shivaay_LearningAssistant.py:178-184 | a block without a front line yields no card |
| `Flashcards.LowerCaseLabelKept` | Shivaay_LearningAssistant.py:178-179 | `front: X` is detected as a front line but its value keeps the lower-case label |
| `Flashcards.PaddedLineClassified` | Shivaay_LearningAssistant.py:178-180 | a line made of whitespace, the exact-case marker, any text and whitespace is classified under the marker's label |
| `Flashcards.PaddedLineCaptured` | Shivaay_LearningAssistant.py:179-181 | such a line, when its text after the marker holds no second marker, captures that text stripped |
| `Flashcards.LabelledLineClassified` | Shivaay_LearningAssistant.py:178-180 | a line `Front: v` / `Back: v` is classified under its label, for every `v` |
| `Flashcards.LabelledLineCaptured` | Shivaay_LearningAssistant.py:179-181 | a line `Front: v` / `Back: v` captures exactly `v` when `v` holds no second marker and has no whitespace at either end (the empty value included) |
| `Flashcards.BlockYieldsCard` | Shivaay_LearningAssistant.py:174-184 | a block `Front: f\nBack: b` yields exactly the card (f, b) when f and b are non-empty single lines without their marker and with no whitespace at either end |
| `Flashcards.TwoBlocksYieldTwoCards` | Shivaay_LearningAssistant.py:169-186 | two such blocks, with values meeting the same conditions, separated by a blank line yield their two cards in order |
| `Flashcards.ArithmeticAndCapitalScenario` | Shivaay_LearningAssistant.py:169-186 | the two-block response about 2+2 and the capital of France parses to those two cards |
| `Flashcards.ParsedCardsSingleLine` | Shivaay_LearningAssistant.py:174-181 | no parsed front or back contains a line break |
| `FlashcardExport.Entry` | Shivaay_LearningAssistant.py:190 | an entry starts with its number and ". ", and ends with the card's back |
| `FlashcardExport.Entries` | Shivaay_LearningAssistant.py:190 | one entry per card, in list order, the entry at position i numbered i+1 as `enumerate` and `i+1` give |
| `FlashcardExport.FormatFlashcards` | Shivaay_LearningAssistant.py:189-191 | the export of no cards is the empty string |
| `FlashcardExport.FormatOne` | Shivaay_LearningAssistant.py:190 | one card exports as `1. front`, a line break, three spaces and the back |
| `FlashcardExport.FormatSnoc` | Shivaay_LearningAssistant.py:190 | after at least one earlier card, one more card appends a blank line and its entry numbered one past the others; the earlier text is unchanged |
| `FlashcardExport.TwoCardExample` | Shivaay_LearningAssistant.py:189-191 | `[(Q1,A1),(Q2,A2)]` exports as `1. Q1\n   A1\n\n2. Q2\n   A2` |
| `FlashcardExport.ExportBlocksNumbered` | Shivaay_LearningAssistant.py:189-191 | for single-line cards, the export cut at blank lines has one block per card, and block k (from 0) starts with a decimal number that reads back as k+1, then ". " |
| `FlashcardExport.EntryCleanCut` | Shivaay_LearningAssistant.py:190 | an entry of a single-line card holds no blank line |
| `FlashcardExport.ExportSplitsIntoEntries` | Shivaay_LearningAssistant.py:189-191 | for single-line cards, the export cut at blank lines is exactly the entries, one per card, in order |
| `FlashcardExport.ParsedExportSplitsIntoEntries` | Shivaay_LearningAssistant.py:169-191 | the export of any non-empty parse cut at blank lines gives one entry per parsed card |
| `History.Deleted` | Shivaay_LearningAssistant.py:59-61 | an in-range delete removes that position, keeps the earlier entries and moves the later ones down one place; any other index leaves the list unchanged |
| `History.DeletedRemovesOne` | Shivaay_LearningAssistant.py:59-61 | deletion removes one copy of the deleted entry and nothing else |
| `History.DeleteUndoesAdd` | Shivaay_LearningAssistant.py:55-61 | deleting the entry just appended restores the list |
| `History.HistoryStore.constructor` | Shivaay_LearningAssistant.py:10-11 | a session starts with an empty history |
| `History.HistoryStore.Add` | Shivaay_LearningAssistant.py:55-56 | appends exactly one record at the end, earlier records unchanged |
| `History.HistoryStore.Delete` | Shivaay_LearningAssistant.py:59-61 | the new list is `Deleted` of the old one at that index |
| `History.HistoryStore.Clear` | Shivaay_LearningAssistant.py:64-65 | the history is empty afterwards |
| `Completion.BuildPayload` | Shivaay_LearningAssistant.py:35-42 | two messages: the fixed system instruction, then a user message made of the task label, ": " and the user text; temperature 0.7, top_p 1 |
| `Completion.PayloadIdentifiesRequest` | Shivaay_LearningAssistant.py:33-42 | for the task labels the pages use, different (task, text) pairs give different payloads |
| `Completion.ResponseText` | Shivaay_LearningAssistant.py:47-51 | the body's `answer` when present, the sentinel when absent, the error prefix followed by the error text when the request raised |
| `Completion.ResponseTextClassified` | Shivaay_LearningAssistant.py:48-51 | a text that is neither the sentinel nor prefixed as an error is the answer of a decoded body |
| `Completion.GetAiResponse` | Shivaay_LearningAssistant.py:33-51 | never fails: a transport failure gives a text with the error prefix, a decoded body gives its `answer` when it has one and the sentinel otherwise |
| `Completion.ModeLabel` | Shivaay_LearningAssistant.py:96-276 | the task labels passed at lines 96, 116, 147, 160, 204 and 256-276 are non-empty and contain no ':' |
| `Downloads.QuizFilename` | Shivaay_LearningAssistant.py:124 | the quiz file name is the topic followed by `_quiz.txt` |
| `Downloads.QuizFilenameInjective` | Shivaay_LearningAssistant.py:124 | different topics give different quiz file names |
| `Downloads.FlashcardsFilename` | Shivaay_LearningAssistant.py:215 | the flashcard file name is the topic with spaces as underscores followed by `_flashcards.txt`, and holds no space |
| `Downloads.FlashcardsFilenameSame` | Shivaay_LearningAssistant.py:215 | two topics share a flashcard file name exactly when they agree with spaces read as underscores |

## Left out

- The HTTP POST, its headers, the API URL and key read from the Streamlit secrets, and `verify=False` (lines 6-7, 46): I/O. The transport's outcome is the `Completion.Reply` parameter: a decoded JSON object or the text of the raised exception.
- Completion.ResponseText: the decoded body is a map from strings to strings; a JSON `answer` that is not a string (a number, a list) is not modelled, and a reply whose JSON is not an object (so that `.get` raises) is modelled as `RequestFailed`.
- Completion.ResponseText: the exception text `str(e)` is opaque; it is the `reason` parameter.
- The temperature is the Python float 0.7 and top_p the int 1 (line 41); the model keeps both as the reals 0.7 and 1.0, which carry no behaviour here, and does not model the JSON serialisation that writes them as `0.7` and `1`.
- The LaTeX-to-text conversion of the quiz (line 119): a foreign library whose behaviour is not visible.
- The Streamlit page: title, sidebar and mode dispatch (lines 13-30, 284-297), `view_history` rendering and its buttons (lines 68-86), the per-mode page functions with their prompt strings and `download_button` calls (lines 89-165, 194-225, 240-281). Which page calls which core operation is not modelled.
- The commented-out PDF and URL branches (lines 227-235): dead code.
- PyStr.Lower: Python's `lower()` is modelled only for the characters whose lower case is an ASCII letter (A-Z and the Kelvin sign); all other characters are left unchanged. This is exact for the prefix tests on `front:` and `back:`, the only use, since the one character with a multi-character lower case (U+0130) lowers to a text starting with `i`.
- Python strings may hold lone surrogate code points; Dafny's `char` holds Unicode scalar values only, so such strings are not modelled.
- That parsing has no hidden state (the same text always yields the same cards) is not stated as a lemma: the parse is a function.

=== FILE: completion.dfy ===
/**
  The completion client: the request sent to the study-assistant endpoint
  and the text made of its reply.  The transport itself (the HTTP POST and
  the JSON decoding) is outside the model: its outcome is given as a `Reply`.
*/
module Completion {
  import opened PyStr

  const SystemPrompt: string := "You are an educational assistant who helps students with various tasks."
  const Temperature: real := 0.7
  const TopP: real := 1.0
  const AnswerKey: string := "answer"
  const NoResponse: string := "No response received."
  const ErrorPrefix: string := "Error during request: "

  datatype Message = Message(role: string, content: string)

  /** The JSON body of the request. */
  datatype Payload = Payload(messages: seq<Message>, temperature: real, topP: real)

  /** The outcome of one POST: the decoded JSON object, or the text of the
      exception raised while sending or decoding. */
  datatype Reply = Decoded(body: map<string, string>) | RequestFailed(reason: string)

  /** The request for one task: the fixed system instruction, then the user
      text prefixed by the task label and ": ". */
  function BuildPayload(userInput: string, modeType: string): (p: Payload)
    ensures |p.messages| == 2
    ensures p.messages[0].role == "system" && p.messages[0].content == SystemPrompt
    ensures p.messages[1].role == "user"
    ensures StartsWith(p.messages[1].content, modeType + ": ")
    ensures p.messages[1].content[|modeType| + 2..] == userInput
    ensures p.temperature == 0.7 && p.topP == 1.0
  {
    Payload([Message("system", SystemPrompt), Message("user", modeType + ": " + userInput)], Temperature, TopP)
  }

  /** The text `get_ai_response` returns for a reply: the body's answer, the
      fixed sentinel when the body has none, or the error text when the
      request raised. */
  function ResponseText(reply: Reply): (r: string)
    ensures reply.RequestFailed? ==> StartsWith(r, ErrorPrefix) && r[|ErrorPrefix|..] == reply.reason
    ensures reply.Decoded? && AnswerKey in reply.body ==> r == reply.body[AnswerKey]
    ensures reply.Decoded? && AnswerKey !in reply.body ==> r == NoResponse
  {
    match reply
    case Decoded(body) => if AnswerKey in body then body[AnswerKey] else NoResponse
    case RequestFailed(reason) => ErrorPrefix + reason
  }

  /** `get_ai_response` with the transport as a parameter: it never fails, and
      a transport failure always shows as a text with the error prefix. */
  function GetAiResponse(userInput: string, modeType: string, post: Payload -> Reply): (r: string)
    ensures post(BuildPayload(userInput, modeType)).RequestFailed? ==> StartsWith(r, ErrorPrefix)
    ensures var reply := post(BuildPayload(userInput, modeType));
      reply.Decoded? && AnswerKey !in reply.body ==> r == NoResponse
    ensures var reply := post(BuildPayload(userInput, modeType));
      reply.Decoded? && AnswerKey in reply.body ==> r == reply.body[AnswerKey]
  {
    ResponseText(post(BuildPayload(userInput, modeType)))
  }

  /** A text that is neither the sentinel nor an error text is the answer of
      a decoded body: callers can tell the three outcomes apart by text. */
  lemma ResponseTextClassified(reply: Reply)
    requires ResponseText(reply) != NoResponse
    requires !StartsWith(ResponseText(reply), ErrorPrefix)
    ensures reply.Decoded? && AnswerKey in reply.body
    ensures reply.body[AnswerKey] == ResponseText(reply)
  {
  }

  /** The task labels the pages pass to `get_ai_response`. */
  datatype TaskMode =
    | AnsweringQuestions | QuizGenerator | LearningPlans
    | ProvideResources | FlashcardGenerator | CodeExpert

  /** The label of a page: a non-empty text with no ':', so it cannot be
      confused with the ": " that follows it in the request. */
  function ModeLabel(mode: TaskMode): (name: string)
    ensures name != [] && ':' !in name
  {
    match mode
    case AnsweringQuestions => "Answering Questions"
    case QuizGenerator => "Quiz Generator"
    case LearningPlans => "Learning Plans"
    case ProvideResources => "Provide Resources"
    case FlashcardGenerator => "Flashcard Generator"
    case CodeExpert => "Code Expert"
  }

  /** Two prefixes without ':' that both precede ": " in one text are equal. */
  lemma PrefixBeforeColon(a: string, u: string, b: string, v: string)
    requires ':' !in a && ':' !in b
    requires a + ": " + u == b + ": " + v
    ensures a == b && u == v
  {
    var t := a + ": " + u;
    assert t[|a|] == ':' && t[|b|] == ':';
    assert forall k :: 0 <= k < |a| ==> t[k] == a[k] != ':';
    assert forall k :: 0 <= k < |b| ==> t[k] == b[k] != ':';
    assert a == t[..|a|] == b;
    assert u == t[|a| + 2..] == v;
  }

  /** The request determines the task and the user text: no two different
      (task, text) pairs produce the same payload. */
  lemma PayloadIdentifiesRequest(u1: string, m1: TaskMode, u2: string, m2: TaskMode)
    requires BuildPayload(u1, ModeLabel(m1)) == BuildPayload(u2, ModeLabel(m2))
    ensures u1 == u2 && m1 == m2
  {
    var p1, p2 := BuildPayload(u1, ModeLabel(m1)), BuildPayload(u2, ModeLabel(m2));
    assert p1.messages[1].content == p2.messages[1].content;
    PrefixBeforeColon(ModeLabel(m1), u1, ModeLabel(m2), u2);
  }
}

=== FILE: downloads.dfy ===
/**
  The names under which the quiz and the flashcards are offered for
  download.
*/
module Downloads {
  import opened PyStr

  const QuizSuffix: string := "_quiz.txt"
  const FlashcardsSuffix: string := "_flashcards.txt"

  /** The quiz file: the topic as typed, then "_quiz.txt". */
  function QuizFilename(topic: string): (name: string)
    ensures |name| == |topic| + |QuizSuffix|
    ensures name[..|topic|] == topic && name[|topic|..] == QuizSuffix
  {
    topic + QuizSuffix
  }

  /** Different topics give different quiz files. */
  lemma QuizFilenameInjective(t1: string, t2: string)
    requires QuizFilename(t1) == QuizFilename(t2)
    ensures t1 == t2
  {
    assert |t1| == |t2|;
    assert t1 == QuizFilename(t1)[..|t1|];
  }

  /** The flashcard file: the topic with every space turned into '_', then
      "_flashcards.txt"; the name holds no space. */
  function FlashcardsFilename(topic: string): (name: string)
    ensures |name| == |topic| + |FlashcardsSuffix|
    ensures forall k :: 0 <= k < |topic| ==> name[k] == (if topic[k] == ' ' then '_' else topic[k])
    ensures name[|topic|..] == FlashcardsSuffix
    ensures ' ' !in name
  {
    var base := ReplaceChar(topic, ' ', '_');
    assert ' ' !in base;
    assert (base + FlashcardsSuffix)[|topic|..] == FlashcardsSuffix;
    base + FlashcardsSuffix
  }

  /** Two topics give the same flashcard file exactly when they agree once
      spaces are read as underscores. */
  lemma FlashcardsFilenameSame(t1: string, t2: string)
    ensures FlashcardsFilename(t1) == FlashcardsFilename(t2)
        <==> ReplaceChar(t1, ' ', '_') == ReplaceChar(t2, ' ', '_')
  {
    var n1, n2 := FlashcardsFilename(t1), FlashcardsFilename(t2);
    if n1 == n2 {
      assert |t1| == |t2|;
      assert ReplaceChar(t1, ' ', '_') == n1[..|t1|];
      assert ReplaceChar(t2, ' ', '_') == n2[..|t2|];
    }
  }
}

=== FILE: export.dfy ===
/**
  The plain-text export of a set of flashcards: each card becomes a numbered
  entry "N. front" with the back on the next line indented by three spaces,
  numbered from 1 in list order, entries separated by a blank line.
*/
module FlashcardExport {
  import opened PyStr
  import opened Flashcards

  const EntrySeparator: string := "\n\n"

  /** One numbered entry of the export: the number and ". " come first, and
      the back ends it. */
  function Entry(number: nat, card: Flashcard): (e: string)
    ensures StartsWith(e, NatToString(number) + ". ")
    ensures |card.back| <= |e| && e[|e| - |card.back|..] == card.back
  {
    NatToString(number) + ". " + card.front + "\n   " + card.back
  }

  /** The entries of the export, in list order, numbered from 1. */
  function Entries(cards: seq<Flashcard>): (es: seq<string>)
    ensures |es| == |cards|
    ensures forall i :: 0 <= i < |es| ==> StartsWith(es[i], NatToString(i + 1) + ". ")
  {
    seq(|cards|, i requires 0 <= i < |cards| => Entry(i + 1, cards[i]))
  }

  /** `format_flashcards_for_download`: the entries joined by blank lines. */
  function FormatFlashcards(cards: seq<Flashcard>): (text: string)
    ensures cards == [] ==> text == ""
  {
    Join(Entries(cards), EntrySeparator)
  }

  /** A single card is exported as its entry numbered 1, with no separator. */
  lemma FormatOne(card: Flashcard)
    ensures FormatFlashcards([card]) == "1. " + card.front + "\n   " + card.back
  {
    assert Entries([card]) == [Entry(1, card)];
    assert NatToString(1) == "1";
  }

  /** Exporting one more card appends a blank line and the card's entry,
      numbered one past the cards before it; nothing before it changes. */
  lemma FormatSnoc(cards: seq<Flashcard>, card: Flashcard)
    requires cards != []
    ensures FormatFlashcards(cards + [card])
         == FormatFlashcards(cards) + EntrySeparator + Entry(|cards| + 1, card)
  {
    assert Entries(cards + [card]) == Entries(cards) + [Entry(|cards| + 1, card)];
    JoinSnoc(Entries(cards), Entry(|cards| + 1, card), EntrySeparator);
  }

  /** The export of two cards. */
  lemma TwoCardExample()
    ensures FormatFlashcards([Flashcard("Q1", "A1"), Flashcard("Q2", "A2")])
         == "1. Q1\n   A1" + "\n\n" + "2. Q2\n   A2"
  {
    var c1, c2 := Flashcard("Q1", "A1"), Flashcard("Q2", "A2");
    FormatOne(c1);
    FormatSnoc([c1], c2);
    assert [c1] + [c2] == [c1, c2];
    assert FormatFlashcards([c1]) == "1. Q1\n   A1";
    assert NatToString(2) == "2";
    assert Entry(2, c2) == "2. Q2\n   A2";
  }

  /** A card whose front and back are single lines is exported as an entry
      that splits cleanly at blank lines. */
  lemma EntryCleanCut(number: nat, card: Flashcard)
    requires SingleLine(card.front) && SingleLine(card.back)
    ensures CleanCut(Entry(number, card), EntrySeparator)
    ensures Free(Entry(number, card), EntrySeparator)
  {
    var digits := NatToString(number);
    var a := digits + ". " + card.front;
    var b := "   " + card.back;
    assert Entry(number, card) == a + "\n" + b;
    assert forall k :: 0 <= k < |digits| ==> a[k] == digits[k];
    assert forall k :: |digits| + 2 <= k < |a| ==> a[k] == card.front[k - |digits| - 2];
    assert SingleLine(a);
    assert forall k :: 3 <= k < |b| ==> b[k] == card.back[k - 3];
    assert SingleLine(b);
    TwoLinesCleanCut(a, b);
  }

  /** When no front or back holds a line break, the export cut at blank lines
      gives back exactly one entry per card, in order. */
  lemma ExportSplitsIntoEntries(cards: seq<Flashcard>)
    requires forall i :: 0 <= i < |cards| ==> SingleLine(cards[i].front) && SingleLine(cards[i].back)
    ensures Split(FormatFlashcards(cards), EntrySeparator) == if cards == [] then [""] else Entries(cards)
  {
    if cards != [] {
      var es := Entries(cards);
      forall i | 0 <= i < |es|
        ensures CleanCut(es[i], EntrySeparator) && Free(es[i], EntrySeparator)
      {
        EntryCleanCut(i + 1, cards[i]);
      }
      SplitJoin(es, EntrySeparator);
    }
  }

  /** Reading the exported file back: for single-line cards, cutting the
      export at blank lines gives one block per card, and the k-th block
      (from 0) starts with a decimal number that reads back as k + 1. */
  lemma ExportBlocksNumbered(cards: seq<Flashcard>, k: nat)
    requires forall i :: 0 <= i < |cards| ==> SingleLine(cards[i].front) && SingleLine(cards[i].back)
    requires k < |cards|
    ensures |Split(FormatFlashcards(cards), EntrySeparator)| == |cards|
    ensures StartsWith(Split(FormatFlashcards(cards), EntrySeparator)[k], NatToString(k + 1) + ". ")
    ensures DecimalValue(NatToString(k + 1)) == k + 1
  {
    ExportSplitsIntoEntries(cards);
    DecimalRoundTrip(k + 1);
  }

  /** The export of any parsed response splits back into one entry per card. */
  lemma ParsedExportSplitsIntoEntries(text: string)
    requires ParsedCards(text) != []
    ensures Split(FormatFlashcards(ParsedCards(text)), EntrySeparator) == Entries(ParsedCards(text))
  {
    ParsedCardsSingleLine(text);
    ExportSplitsIntoEntries(ParsedCards(text));
  }
}

=== FILE: flashcards.dfy ===
/**
  Flashcard extraction: turning the completion endpoint's free text into
  front/back records.  The text is cut into blocks at every blank line
  ("\n\n"), each block into lines at "\n"; within a block the last line
  labelled `front:` and the last line labelled `back:` (labels detected case
  insensitively on the stripped line) give the card, and a block whose front
  or back is missing or empty gives none.
*/
module Flashcards {
  import opened PyStr

  datatype Option<T> = None | Some(value: T)

  datatype Flashcard = Flashcard(front: string, back: string)

  /** The two labels a line can carry. */
  datatype Label = Front | Back

  const BlockSeparator: string := "\n\n"
  const LineSeparator: string := "\n"

  /** The lower-case prefix that detects a label on a stripped line. */
  function Prefix(tag: Label): string {
    match tag
    case Front => "front:"
    case Back => "back:"
  }

  /** The exact-case text removed from a labelled line to get its value. */
  function Marker(tag: Label): (m: string)
    ensures |m| > 0
  {
    match tag
    case Front => "Front:"
    case Back => "Back:"
  }

  /** Which label a line carries: a front label is tested first, so a line is
      a back line only when it is not a front line. */
  function Classify(line: string): (r: Option<Label>)
    ensures r.Some? ==> StartsWith(Lower(Strip(line)), Prefix(r.value))
    ensures r == Some(Back) ==> !StartsWith(Lower(Strip(line)), Prefix(Front))
  {
    var key := Lower(Strip(line));
    if StartsWith(key, Prefix(Front)) then Some(Front)
    else if StartsWith(key, Prefix(Back)) then Some(Back)
    else None
  }

  /** The value captured from a labelled line: the whole raw line with every
      exact-case marker removed, then stripped. */
  function Capture(line: string, tag: Label): (v: string)
    ensures |v| <= |line| && Trimmed(v)
  {
    Strip(RemoveAll(line, Marker(tag)))
  }

  /** The value of the last line in `lines` that carries `label`, or None
      when no line does. */
  function LastCapture(lines: seq<string>, tag: Label): (r: Option<string>)
    ensures r.Some? ==> Trimmed(r.value)
  {
    if lines == [] then None
    else
      var last := lines[|lines| - 1];
      if Classify(last) == Some(tag) then Some(Capture(last, tag))
      else LastCapture(lines[..|lines| - 1], tag)
  }

  /** Python truthiness of the running `front`/`back`: `None` and the empty
      string are false, every other string is true. */
  predicate Truthy(v: Option<string>)
    ensures v.None? ==> !Truthy(v)
    ensures v == Some("") ==> !Truthy(v)
    ensures v.Some? && |v.value| > 0 ==> Truthy(v)
  {
    v.Some? && v.value != ""
  }

  /** The card a block yields, if any. */
  function SectionCard(section: string): (r: Option<Flashcard>)
    ensures r.Some? ==> r.value.front != "" && r.value.back != ""
    ensures r.Some? ==> Trimmed(r.value.front) && Trimmed(r.value.back)
  {
    var lines := Split(section, LineSeparator);
    var front := LastCapture(lines, Front);
    var back := LastCapture(lines, Back);
    if Truthy(front) && Truthy(back) then Some(Flashcard(front.value, back.value)) else None
  }

  /** The cards one block adds to the output: its card, or none. */
  function CardOf(section: string): (cards: seq<Flashcard>)
    ensures |cards| <= 1
  {
    match SectionCard(section)
    case Some(card) => [card]
    case None => []
  }

  /** The cards a sequence of blocks yields, in block order: each block adds
      at most one card, and every card has a non-empty, trimmed front and
      back. */
  function CardsOf(sections: seq<string>): (cards: seq<Flashcard>)
    ensures |cards| <= |sections|
    ensures forall i :: 0 <= i < |cards| ==> cards[i].front != "" && cards[i].back != ""
    ensures forall i :: 0 <= i < |cards| ==> Trimmed(cards[i].front) && Trimmed(cards[i].back)
  {
    if sections == [] then []
    else CardsOf(sections[..|sections| - 1]) + CardOf(sections[|sections| - 1])
  }

  /** The result of parsing a whole response. */
  function ParsedCards(text: string): (cards: seq<Flashcard>)
    ensures |cards| <= |Split(text, BlockSeparator)|
    ensures forall i :: 0 <= i < |cards| ==> cards[i].front != "" && cards[i].back != ""
    ensures forall i :: 0 <= i < |cards| ==> Trimmed(cards[i].front) && Trimmed(cards[i].back)
  {
    CardsOf(Split(text, BlockSeparator))
  }

  /** The inner loop of `parse_flashcards`: scans one block's lines keeping
      the running front and back, each overwritten by every later line
      carrying its label. */
  method ScanSection(section: string) returns (front: Option<string>, back: Option<string>)
    ensures front == LastCapture(Split(section, LineSeparator), Front)
    ensures back == LastCapture(Split(section, LineSeparator), Back)
  {
    var lines := Split(section, LineSeparator);
    front, back := None, None;
    for li := 0 to |lines|
      invariant front == LastCapture(lines[..li], Front)
      invariant back == LastCapture(lines[..li], Back)
    {
      var line := lines[li];
      assert lines[..li + 1][..li] == lines[..li] && lines[..li + 1][li] == line;
      if StartsWith(Lower(Strip(line)), "front:") {
        front := Some(Strip(RemoveAll(line, "Front:")));
      } else if StartsWith(Lower(Strip(line)), "back:") {
        back := Some(Strip(RemoveAll(line, "Back:")));
      }
    }
    assert lines[..|lines|] == lines;
  }

  /** `parse_flashcards`: scans the blocks in order and appends a card for
      each block whose final front and back are both truthy. */
  method ParseFlashcards(responseText: string) returns (flashcards: seq<Flashcard>)
    ensures flashcards == ParsedCards(responseText)
  {
    flashcards := [];
    var sections := Split(responseText, BlockSeparator);
    for si := 0 to |sections|
      invariant flashcards == CardsOf(sections[..si])
    {
      var front, back := ScanSection(sections[si]);
      assert sections[..si + 1][..si] == sections[..si] && sections[..si + 1][si] == sections[si];
      if Truthy(front) && Truthy(back) {
        flashcards := flashcards + [Flashcard(front.value, back.value)];
      }
    }
    assert sections[..|sections|] == sections;
  }

  // ---------------------------------------------------------------------------
  // Properties of the parser
  // ---------------------------------------------------------------------------

  /** An empty response yields no cards. */
  lemma ParseEmpty()
    ensures ParsedCards("") == []
  {
    assert Split("", BlockSeparator) == [""];
    assert Split("", LineSeparator) == [""];
    assert Strip("") == [];
    assert Classify("") == None;
    assert LastCapture([""], Front) == None;
  }

  /** Parsing distributes over blocks: the cards of a run of blocks are the
      cards of its parts, in order. */
  lemma {:induction false} CardsOfAppend(a: seq<string>, b: seq<string>)
    ensures CardsOf(a + b) == CardsOf(a) + CardsOf(b)
    decreases |b|
  {
    if b == [] {
      assert a + b == a;
    } else {
      var b' := b[..|b| - 1];
      var last := b[|b| - 1];
      assert (a + b)[..|a + b| - 1] == a + b';
      assert (a + b)[|a + b| - 1] == last;
      calc {
        CardsOf(a + b);
        CardsOf(a + b') + CardOf(last);
        { CardsOfAppend(a, b'); }
        CardsOf(a) + CardsOf(b') + CardOf(last);
        CardsOf(a) + (CardsOf(b') + CardOf(last));
        CardsOf(a) + CardsOf(b);
      }
    }
  }

  /** Each block contributes its own card, or nothing, at its own place. */
  lemma OneCardPerSection(before: seq<string>, section: string, after: seq<string>)
    ensures CardsOf(before + [section] + after)
         == CardsOf(before) + CardOf(section) + CardsOf(after)
  {
    CardsOfAppend(before + [section], after);
    CardsOfAppend(before, [section]);
    assert [section][..0] == [];
  }

  /** The last line carrying a label decides the captured value, whatever
      earlier lines with that label said. */
  lemma {:induction false} LastCaptureWins(lines: seq<string>, tag: Label, i: nat)
    requires i < |lines| && Classify(lines[i]) == Some(tag)
    requires forall j :: i < j < |lines| ==> Classify(lines[j]) != Some(tag)
    ensures LastCapture(lines, tag) == Some(Capture(lines[i], tag))
    decreases |lines|
  {
    if i < |lines| - 1 {
      var init := lines[..|lines| - 1];
      assert forall j :: i < j < |init| ==> init[j] == lines[j];
      LastCaptureWins(init, tag, i);
    }
  }

  /** Nothing is captured for a label exactly when no line carries it. */
  lemma {:induction false} LastCaptureNone(lines: seq<string>, tag: Label)
    ensures LastCapture(lines, tag) == None
        <==> forall j :: 0 <= j < |lines| ==> Classify(lines[j]) != Some(tag)
    decreases |lines|
  {
    if lines != [] {
      var init := lines[..|lines| - 1];
      LastCaptureNone(init, tag);
      assert forall j :: 0 <= j < |init| ==> init[j] == lines[j];
    }
  }

  /** A captured value always comes from a line carrying the label. */
  lemma {:induction false} LastCaptureFrom(lines: seq<string>, tag: Label)
    requires LastCapture(lines, tag).Some?
    ensures exists i :: 0 <= i < |lines| && Classify(lines[i]) == Some(tag)
                        && LastCapture(lines, tag).value == Capture(lines[i], tag)
    decreases |lines|
  {
    var last := |lines| - 1;
    if Classify(lines[last]) != Some(tag) {
      var init := lines[..last];
      LastCaptureFrom(init, tag);
      var i :| 0 <= i < |init| && Classify(init[i]) == Some(tag)
                && LastCapture(init, tag).value == Capture(init[i], tag);
      assert init[i] == lines[i];
    }
  }

  /** A block's card is made of the last front line and the last back line,
      and exists only when both captured values are non-empty; an empty last
      value drops the card even when an earlier line had a value. */
  lemma SectionCardFromLastLines(section: string, i: nat, j: nat)
    requires var lines := Split(section, LineSeparator);
      && i < |lines| && Classify(lines[i]) == Some(Front)
      && (forall k :: i < k < |lines| ==> Classify(lines[k]) != Some(Front))
      && j < |lines| && Classify(lines[j]) == Some(Back)
      && (forall k :: j < k < |lines| ==> Classify(lines[k]) != Some(Back))
    ensures var lines := Split(section, LineSeparator);
      var f := Capture(lines[i], Front);
      var b := Capture(lines[j], Back);
      SectionCard(section) == if f != "" && b != "" then Some(Flashcard(f, b)) else None
  {
    var lines := Split(section, LineSeparator);
    LastCaptureWins(lines, Front, i);
    LastCaptureWins(lines, Back, j);
  }

  /** A block without a back line yields no card, however many front lines it
      has: a front line is never taken for a back line. */
  lemma NoBackNoCard(section: string)
    requires forall k :: 0 <= k < |Split(section, LineSeparator)| ==>
               Classify(Split(section, LineSeparator)[k]) != Some(Back)
    ensures SectionCard(section) == None
  {
    LastCaptureNone(Split(section, LineSeparator), Back);
  }

  /** A block without a front line yields no card. */
  lemma NoFrontNoCard(section: string)
    requires forall k :: 0 <= k < |Split(section, LineSeparator)| ==>
               Classify(Split(section, LineSeparator)[k]) != Some(Front)
    ensures SectionCard(section) == None
  {
    LastCaptureNone(Split(section, LineSeparator), Front);
  }

  /** Labels are detected in any letter case, but only the exact-case marker
      is removed from the value: a lower-case label stays in the card. */
  lemma LowerCaseLabelKept()
    ensures Classify("front: X") == Some(Front)
    ensures Capture("front: X", Front) == "front: X"
  {
    var line := "front: X";
    assert Strip(line) == line by {
      StripPadded("", line, "");
      assert "" + line + "" == line;
    }
    assert Lower(line)[..6] == "front:";
    forall k | 0 <= k <= |line|
      ensures !OccursAt(line, "Front:", k)
    {
      if k < |line| {
        assert line[k] != 'F';
      }
    }
    RemoveAllFree(line, "Front:");
  }

  // ---------------------------------------------------------------------------
  // Cards are single-line
  // ---------------------------------------------------------------------------

  lemma FreeOfNewline(s: string)
    requires Free(s, LineSeparator)
    ensures SingleLine(s)
  {
    forall k | 0 <= k < |s|
      ensures s[k] != '\n'
    {
      assert s[k..k + 1] == [s[k]];
      assert !OccursAt(s, LineSeparator, k);
    }
  }

  lemma CaptureSingleLine(line: string, tag: Label)
    requires SingleLine(line)
    ensures SingleLine(Capture(line, tag))
  {
    var removed := RemoveAll(line, Marker(tag));
    RemoveAllChars(line, Marker(tag));
    assert SingleLine(removed);
    StripSpec(removed);
  }

  lemma SectionCardSingleLine(section: string)
    requires SectionCard(section).Some?
    ensures SingleLine(SectionCard(section).value.front)
    ensures SingleLine(SectionCard(section).value.back)
  {
    var lines := Split(section, LineSeparator);
    SplitPiecesFree(section, LineSeparator);
    LastCaptureFrom(lines, Front);
    var i :| 0 <= i < |lines| && Classify(lines[i]) == Some(Front)
              && LastCapture(lines, Front).value == Capture(lines[i], Front);
    FreeOfNewline(lines[i]);
    CaptureSingleLine(lines[i], Front);
    LastCaptureFrom(lines, Back);
    var j :| 0 <= j < |lines| && Classify(lines[j]) == Some(Back)
              && LastCapture(lines, Back).value == Capture(lines[j], Back);
    FreeOfNewline(lines[j]);
    CaptureSingleLine(lines[j], Back);
  }

  lemma {:induction false} CardsOfSingleLine(sections: seq<string>)
    ensures forall i :: 0 <= i < |CardsOf(sections)| ==>
              SingleLine(CardsOf(sections)[i].front) && SingleLine(CardsOf(sections)[i].back)
    decreases |sections|
  {
    if sections != [] {
      var last := sections[|sections| - 1];
      CardsOfSingleLine(sections[..|sections| - 1]);
      if SectionCard(last).Some? {
        SectionCardSingleLine(last);
      }
    }
  }

  /** No parsed front or back contains a line break: each comes from one line. */
  lemma ParsedCardsSingleLine(text: string)
    ensures forall i :: 0 <= i < |ParsedCards(text)| ==>
              SingleLine(ParsedCards(text)[i].front) && SingleLine(ParsedCards(text)[i].back)
  {
    CardsOfSingleLine(Split(text, BlockSeparator));
  }

  // ---------------------------------------------------------------------------
  // Well-formed blocks
  // ---------------------------------------------------------------------------

  /** A value that survives as a card field: on one line, without the
      exact-case marker, and with no whitespace at either end. */
  predicate CleanValue(v: string, tag: Label) {
    && v != [] && SingleLine(v) && Free(v, Marker(tag))
    && !IsSpace(v[0]) && !IsSpace(v[|v| - 1])
  }

  /** The line the prompt asks for: the exact-case marker, a space, the value. */
  function LabelledLine(tag: Label, v: string): string {
    Marker(tag) + " " + v
  }

  /** A line whose stripped text starts with the exact-case marker is
      classified under its label, whatever follows the marker and whatever
      whitespace surrounds the line. */
  lemma PaddedLineClassified(tag: Label, before: string, v: string, after: string)
    requires AllSpace(before) && AllSpace(after)
    ensures Classify(before + Marker(tag) + v + after) == Some(tag)
  {
    var m := Marker(tag);
    StripKeepsHead(before, m, v, after);
    var key := Lower(Strip(before + m + v + after));
    assert forall k :: 0 <= k < |m| ==> key[k] == LowerChar(m[k]);
    assert key[..|m|] == Prefix(tag);
  }

  /** The value captured from such a line is its text after the marker,
      stripped, provided that text holds no second marker. */
  lemma PaddedLineCaptured(tag: Label, before: string, v: string, after: string)
    requires AllSpace(before) && AllSpace(after) && Free(v, Marker(tag))
    ensures Capture(before + Marker(tag) + v + after, tag) == Strip(v)
  {
    RemoveAllPadded(before, Marker(tag), v, after);
    StripAround(before, v, after);
  }

  /** A line written as the prompt asks is classified under its label,
      whatever value follows the marker. */
  lemma LabelledLineClassified(tag: Label, v: string)
    ensures Classify(LabelledLine(tag, v)) == Some(tag)
  {
    assert [] + Marker(tag) + (" " + v) + [] == LabelledLine(tag, v);
    PaddedLineClassified(tag, [], " " + v, []);
  }

  /** A line written as the prompt asks captures exactly its value. */
  lemma LabelledLineCaptured(tag: Label, v: string)
    requires Free(v, Marker(tag)) && Trimmed(v)
    ensures Capture(LabelledLine(tag, v), tag) == v
  {
    var m := Marker(tag);
    FreeCons(' ', v, m);
    assert [] + m + (" " + v) + [] == LabelledLine(tag, v);
    PaddedLineCaptured(tag, [], " " + v, []);
    StripPadded(" ", v, "");
    assert " " + v + "" == " " + v;
  }

  /** A block written as the prompt asks, a front line then a back line,
      yields exactly one card with those values. */
  function Block(front: string, back: string): string {
    LabelledLine(Front, front) + "\n" + LabelledLine(Back, back)
  }

  /** A labelled line with a single-line value is a single line. */
  lemma LabelledLineSingle(tag: Label, v: string)
    requires SingleLine(v)
    ensures SingleLine(LabelledLine(tag, v))
  {
    var line := LabelledLine(tag, v);
    var n := |Marker(tag)| + 1;
    assert forall k :: n <= k < |line| ==> line[k] == v[k - n];
  }

  /** A block of two single-line labelled lines splits into those lines. */
  lemma BlockLines(front: string, back: string)
    requires SingleLine(front) && SingleLine(back)
    ensures SingleLine(LabelledLine(Front, front)) && SingleLine(LabelledLine(Back, back))
    ensures Split(Block(front, back), LineSeparator) == [LabelledLine(Front, front), LabelledLine(Back, back)]
  {
    var l1, l2 := LabelledLine(Front, front), LabelledLine(Back, back);
    LabelledLineSingle(Front, front);
    LabelledLineSingle(Back, back);
    SingleLineCuts(l1);
    SingleLineCuts(l2);
    SplitJoin([l1, l2], LineSeparator);
    assert [l1, l2][1..] == [l2];
  }

  lemma BlockYieldsCard(front: string, back: string)
    requires CleanValue(front, Front) && CleanValue(back, Back)
    ensures SectionCard(Block(front, back)) == Some(Flashcard(front, back))
    ensures SingleLine(LabelledLine(Front, front)) && SingleLine(LabelledLine(Back, back))
  {
    BlockLines(front, back);
    var lines := [LabelledLine(Front, front), LabelledLine(Back, back)];
    LabelledLineClassified(Front, front);
    LabelledLineClassified(Back, back);
    LabelledLineCaptured(Front, front);
    LabelledLineCaptured(Back, back);
    LastCaptureWins(lines, Front, 0);
    LastCaptureWins(lines, Back, 1);
  }

  lemma CardsOfTwo(s1: string, s2: string, c1: Flashcard, c2: Flashcard)
    requires SectionCard(s1) == Some(c1) && SectionCard(s2) == Some(c2)
    ensures CardsOf([s1, s2]) == [c1, c2]
  {
    assert [s1, s2][..1] == [s1];
    assert [s1][..0] == [];
  }

  /** Two well-formed blocks separated by a blank line give their two cards,
      in order. */
  lemma TwoBlocksYieldTwoCards(f1: string, b1: string, f2: string, b2: string)
    requires CleanValue(f1, Front) && CleanValue(b1, Back)
    requires CleanValue(f2, Front) && CleanValue(b2, Back)
    ensures ParsedCards(Block(f1, b1) + BlockSeparator + Block(f2, b2))
         == [Flashcard(f1, b1), Flashcard(f2, b2)]
  {
    var x1, x2 := Block(f1, b1), Block(f2, b2);
    BlockYieldsCard(f1, b1);
    BlockYieldsCard(f2, b2);
    TwoLinesCleanCut(LabelledLine(Front, f1), LabelledLine(Back, b1));
    TwoLinesCleanCut(LabelledLine(Front, f2), LabelledLine(Back, b2));
    SplitJoin([x1, x2], BlockSeparator);
    assert [x1, x2][1..] == [x2];
    assert Split(x1 + BlockSeparator + x2, BlockSeparator) == [x1, x2];
    CardsOfTwo(x1, x2, Flashcard(f1, b1), Flashcard(f2, b2));
  }

  lemma CleanLiteral(v: string, tag: Label)
    requires v != [] && '\n' !in v && ':' !in v
    requires !IsSpace(v[0]) && !IsSpace(v[|v| - 1])
    ensures CleanValue(v, tag)
  {
    FreeOfMissingChar(v, Marker(tag), |Marker(tag)| - 1);
  }

  lemma ScenarioFrontsClean()
    ensures CleanValue("What is 2+2?", Front) && CleanValue("Capital of France?", Front)
  {
    CleanLiteral("What is 2+2?", Front);
    CleanLiteral("Capital of France?", Front);
  }

  lemma ScenarioBacksClean()
    ensures CleanValue("4", Back) && CleanValue("Paris", Back)
  {
    CleanLiteral("4", Back);
    CleanLiteral("Paris", Back);
  }

  lemma ScenarioBlock1()
    ensures Block("What is 2+2?", "4") == "Front: What is 2+2?\nBack: 4"
  {
    assert LabelledLine(Front, "What is 2+2?") == "Front: What is 2+2?";
    assert LabelledLine(Back, "4") == "Back: 4";
  }

  lemma ScenarioBlock2()
    ensures Block("Capital of France?", "Paris") == "Front: Capital of France?\nBack: Paris"
  {
    var l1, l2 := LabelledLine(Front, "Capital of France?"), LabelledLine(Back, "Paris");
    assert l1 == "Front: Capital of France?";
    assert l2 == "Back: Paris";
    assert Block("Capital of France?", "Paris") == l1 + "\n" + l2;
  }

  /** A two-card response written the way the flashcard prompt asks. */
  lemma ArithmeticAndCapitalScenario()
    ensures ParsedCards("Front: What is 2+2?\nBack: 4" + "\n\n" + "Front: Capital of France?\nBack: Paris")
         == [Flashcard("What is 2+2?", "4"), Flashcard("Capital of France?", "Paris")]
  {
    ScenarioFrontsClean();
    ScenarioBacksClean();
    TwoBlocksYieldTwoCards("What is 2+2?", "4", "Capital of France?", "Paris");
    ScenarioBlock1();
    ScenarioBlock2();
  }
}

=== FILE: history.dfy ===
/**
  The session's interaction history: an ordered log of (action, question,
  result) records that the page code appends to after every completed task,
  and that the history page deletes from by position or clears.
*/
module History {

  datatype Entry = Entry(action: string, question: string, result: string)

  /** The log after deleting position `index`: the entry there is gone and the
      others keep their order, later ones moving down one place; an index
      outside the log (negative, too large, or any index of an empty log)
      leaves it as it is. */
  function Deleted(h: seq<Entry>, index: int): (r: seq<Entry>)
    ensures 0 <= index < |h| ==>
              && |r| == |h| - 1
              && (forall k :: 0 <= k < index ==> r[k] == h[k])
              && (forall k :: index <= k < |r| ==> r[k] == h[k + 1])
    ensures !(0 <= index < |h|) ==> r == h
  {
    if 0 <= index < |h| then h[..index] + h[index + 1..] else h
  }

  /** Deleting removes exactly one copy of the deleted entry and nothing else. */
  lemma DeletedRemovesOne(h: seq<Entry>, index: int)
    requires 0 <= index < |h|
    ensures multiset(Deleted(h, index)) == multiset(h) - multiset{h[index]}
  {
    assert h == h[..index] + [h[index]] + h[index + 1..];
    assert multiset(h) == multiset(h[..index]) + multiset{h[index]} + multiset(h[index + 1..]);
  }

  /** Deleting the entry just appended restores the log. */
  lemma DeleteUndoesAdd(h: seq<Entry>, e: Entry)
    ensures Deleted(h + [e], |h|) == h
  {
    assert (h + [e])[..|h|] == h;
  }

  /** The history store of one session. */
  class HistoryStore {
    var entries: seq<Entry>

    /** A new session starts with an empty history. */
    constructor ()
      ensures entries == []
    {
      entries := [];
    }

    /** `add_to_history`: appends one record at the end. */
    method Add(action: string, question: string, result: string)
      modifies this
      ensures entries == old(entries) + [Entry(action, question, result)]
      ensures |entries| == |old(entries)| + 1
      ensures entries[..|old(entries)|] == old(entries)
    {
      entries := entries + [Entry(action, question, result)];
    }

    /** `delete_history_entry`: removes the record at `index` when it is a
      position of the log; any other index is silently ignored. */
    method Delete(index: int)
      modifies this
      ensures entries == Deleted(old(entries), index)
    {
      if 0 <= index < |entries| {
        entries := entries[..index] + entries[index + 1..];
      }
    }

    /** `clear_history`: removes every record. */
    method Clear()
      modifies this
      ensures entries == []
    {
      entries := [];
    }
  }

  /** A client of the store: what the page code can rely on after a task is
      recorded, a stale delete and a clear. */
  method HistoryScenario(e1: Entry, e2: Entry)
  {
    var store := new HistoryStore();
    store.Add(e1.action, e1.question, e1.result);
    store.Add(e2.action, e2.question, e2.result);
    assert store.entries == [e1, e2];
    store.Delete(5);
    store.Delete(-1);
    assert store.entries == [e1, e2];
    store.Delete(0);
    assert store.entries == [e2];
    store.Clear();
    assert store.entries == [];
    store.Delete(0);
    assert store.entries == [];
  }
}

=== FILE: pystr.dfy ===
/**
  The Python `str` operations the assistant's core relies on, written out with
  Python's semantics: `split` with a non-empty separator, `join`, `strip()`
  with no argument, `lower()` on the characters that matter for label
  detection, `replace(old, "")`, `replace(' ', '_')` and `str(n)` for a
  natural number.
*/
module PyStr {

  // ---------------------------------------------------------------------------
  // Whitespace and stripping
  // ---------------------------------------------------------------------------

  /** The characters for which Python's `str.isspace()` holds; `strip()` with
      no argument removes exactly these.  Among ASCII characters they are the
      controls 0x09-0x0D, the separators 0x1C-0x1F and the space. */
  predicate IsSpace(c: char)
    ensures c as int < 128 ==> (IsSpace(c) <==> (9 <= c as int <= 13 || 28 <= c as int <= 32))
  {
    c == ' ' || c == '\t' || c == '\n' || c == '\r' || c == '\U{000B}' || c == '\U{000C}'
    || ('\U{001C}' <= c <= '\U{001F}') || c == '\U{0085}' || c == '\U{00A0}' || c == '\U{1680}'
    || ('\U{2000}' <= c <= '\U{200A}') || c == '\U{2028}' || c == '\U{2029}'
    || c == '\U{202F}' || c == '\U{205F}' || c == '\U{3000}'
  }

  predicate AllSpace(s: string) {
    forall k :: 0 <= k < |s| ==> IsSpace(s[k])
  }

  /** `s.lstrip()`: drops the leading run of whitespace, leaving a suffix of
      the text that does not start with whitespace. */
  function LStrip(s: string): (r: string)
    ensures |r| <= |s|
    ensures r == [] || !IsSpace(r[0])
  {
    if s != [] && IsSpace(s[0]) then LStrip(s[1..]) else s
  }

  /** `s.rstrip()`: drops the trailing run of whitespace, leaving a prefix of
      the text that does not end with whitespace. */
  function RStrip(s: string): (r: string)
    ensures |r| <= |s|
    ensures r == [] || !IsSpace(r[|r| - 1])
  {
    if s != [] && IsSpace(s[|s| - 1]) then RStrip(s[..|s| - 1]) else s
  }

  /** A text with no whitespace at either end. */
  predicate Trimmed(s: string) {
    s == [] || (!IsSpace(s[0]) && !IsSpace(s[|s| - 1]))
  }

  /** `s.strip()`: no longer than the text, and with no whitespace at either
      end. */
  function Strip(s: string): (r: string)
    ensures |r| <= |s|
    ensures Trimmed(r)
  {
    var l := LStrip(s);
    RStripSpec(l);
    RStrip(l)
  }

  /** `lstrip` removes a prefix of whitespace and stops at the first other
      character. */
  lemma {:induction false} LStripSpec(s: string)
    ensures var r := LStrip(s);
      && |r| <= |s| && r == s[|s| - |r|..]
      && AllSpace(s[..|s| - |r|])
      && (r == [] || !IsSpace(r[0]))
    decreases |s|
  {
    if s != [] && IsSpace(s[0]) {
      LStripSpec(s[1..]);
      var r := LStrip(s);
      assert s[..|s| - |r|] == [s[0]] + s[1..][..|s| - 1 - |r|];
    }
  }

  /** `rstrip` removes a suffix of whitespace and stops at the last other
      character. */
  lemma {:induction false} RStripSpec(s: string)
    ensures var r := RStrip(s);
      && |r| <= |s| && r == s[..|r|]
      && AllSpace(s[|r|..])
      && (r == [] || !IsSpace(r[|r| - 1]))
    decreases |s|
  {
    if s != [] && IsSpace(s[|s| - 1]) {
      RStripSpec(s[..|s| - 1]);
      var r := RStrip(s);
      assert s[|r|..] == s[..|s| - 1][|r|..] + [s[|s| - 1]];
    }
  }

  /** `strip` gives the run of the text between a whitespace prefix and a
      whitespace suffix, with no whitespace at either end, and empty exactly
      when the text is all whitespace. */
  lemma StripSpec(s: string)
    ensures var r := Strip(s);
      && (r == [] || (!IsSpace(r[0]) && !IsSpace(r[|r| - 1])))
      && (r == [] <==> AllSpace(s))
      && exists i, j :: 0 <= i <= j <= |s| && r == s[i..j] && AllSpace(s[..i]) && AllSpace(s[j..])
  {
    var l := LStrip(s);
    var r := RStrip(l);
    LStripSpec(s);
    RStripSpec(l);
    var i := |s| - |l|;
    forall k | 0 <= k < |r|
      ensures r[k] == s[i + k]
    {
      assert r[k] == l[k];
    }
    if r == [] {
      assert AllSpace(s[..i]);
      assert AllSpace(l[0..]);
      assert l == [];
      forall k | 0 <= k < |s|
        ensures IsSpace(s[k])
      {
        assert s[k] == s[..i][k];
      }
    } else {
      assert !IsSpace(s[i]);
    }
    var j := i + |r|;
    assert r == s[i..j];
    assert s[j..] == l[|r|..];
  }

  lemma {:induction false} LStripPadded(pad: string, t: string)
    requires AllSpace(pad)
    requires t == [] || !IsSpace(t[0])
    ensures LStrip(pad + t) == t
    decreases |pad|
  {
    if pad != [] {
      assert (pad + t)[1..] == pad[1..] + t;
      LStripPadded(pad[1..], t);
    } else {
      assert pad + t == t;
    }
  }

  lemma {:induction false} RStripPadded(t: string, pad: string)
    requires AllSpace(pad)
    requires t == [] || !IsSpace(t[|t| - 1])
    ensures RStrip(t + pad) == t
    decreases |pad|
  {
    if pad != [] {
      assert (t + pad)[..|t + pad| - 1] == t + pad[..|pad| - 1];
      RStripPadded(t, pad[..|pad| - 1]);
    } else {
      assert t + pad == t;
    }
  }

  /** Stripping gives back exactly the text between two runs of whitespace. */
  lemma StripPadded(before: string, core: string, after: string)
    requires AllSpace(before) && AllSpace(after)
    requires core == [] || (!IsSpace(core[0]) && !IsSpace(core[|core| - 1]))
    ensures Strip(before + core + after) == core
  {
    if core == [] {
      assert AllSpace(before + core + after);
      StripSpec(before + core + after);
    } else {
      assert before + core + after == before + (core + after);
      LStripPadded(before, core + after);
      RStripPadded(core, after);
    }
  }

  lemma {:induction false} LStripSpacePrefix(pad: string, t: string)
    requires AllSpace(pad)
    ensures LStrip(pad + t) == LStrip(t)
    decreases |pad|
  {
    if pad != [] {
      assert (pad + t)[1..] == pad[1..] + t;
      LStripSpacePrefix(pad[1..], t);
    } else {
      assert pad + t == t;
    }
  }

  lemma {:induction false} RStripSpaceSuffix(t: string, pad: string)
    requires AllSpace(pad)
    ensures RStrip(t + pad) == RStrip(t)
    decreases |pad|
  {
    if pad != [] {
      assert (t + pad)[..|t + pad| - 1] == t + pad[..|pad| - 1];
      RStripSpaceSuffix(t, pad[..|pad| - 1]);
    } else {
      assert t + pad == t;
    }
  }

  /** Once `lstrip` has reached a non-space character, what follows the text
      is kept as it is. */
  lemma {:induction false} LStripAppend(t: string, u: string)
    requires LStrip(t) != []
    ensures LStrip(t + u) == LStrip(t) + u
    decreases |t|
  {
    if IsSpace(t[0]) {
      assert (t + u)[1..] == t[1..] + u;
      LStripAppend(t[1..], u);
    }
  }

  /** Whitespace around a text does not change what `strip` gives. */
  lemma StripAround(before: string, t: string, after: string)
    requires AllSpace(before) && AllSpace(after)
    ensures Strip(before + t + after) == Strip(t)
  {
    var s := before + t + after;
    assert s == before + (t + after);
    LStripSpacePrefix(before, t + after);
    LStripSpec(t);
    if LStrip(t) == [] {
      assert t[..|t|] == t;
      forall k | 0 <= k < |s|
        ensures IsSpace(s[k])
      {
        if k < |before| {
          assert s[k] == before[k];
        } else if k < |before| + |t| {
          assert s[k] == t[k - |before|];
        } else {
          assert s[k] == after[k - |before| - |t|];
        }
      }
      StripSpec(s);
      StripSpec(t);
    } else {
      LStripAppend(t, after);
      RStripSpaceSuffix(LStrip(t), after);
    }
  }

  /** A head that neither starts nor ends with whitespace survives `strip`,
      whatever follows it and whatever whitespace surrounds the text. */
  lemma StripKeepsHead(before: string, h: string, t: string, after: string)
    requires AllSpace(before) && AllSpace(after)
    requires |h| > 0 && !IsSpace(h[0]) && !IsSpace(h[|h| - 1])
    ensures |h| <= |Strip(before + h + t + after)|
    ensures Strip(before + h + t + after)[..|h|] == h
  {
    var u := h + t;
    assert before + h + t + after == before + u + after;
    StripAround(before, u, after);
    assert LStrip(u) == u;
    RStripSpec(u);
    var r := RStrip(u);
    assert !IsSpace(u[|h| - 1]);
    forall k | |r| <= k < |u|
      ensures IsSpace(u[k])
    {
      assert u[k] == u[|r|..][k - |r|];
    }
    assert |r| >= |h|;
    assert r[..|h|] == u[..|h|] == h;
  }

  // ---------------------------------------------------------------------------
  // Lower-casing and prefixes
  // ---------------------------------------------------------------------------

  /** Python's `lower()` on one character, for every character whose lower
      case is an ASCII letter: 'A'..'Z' and the Kelvin sign U+212A.  Every
      other character is left as it is. */
  function LowerChar(c: char): char {
    if 'A' <= c <= 'Z' then (c as int + 32) as char
    else if c == '\U{212A}' then 'k'
    else c
  }

  /** `s.lower()`: no ASCII upper-case letter is left, and every character
      outside 'A'..'Z' and the Kelvin sign is kept. */
  function Lower(s: string): (r: string)
    ensures |r| == |s|
  {
    seq(|s|, k requires 0 <= k < |s| => LowerChar(s[k]))
  }

  /** `lower()` leaves no ASCII upper-case letter, lowers exactly those and
      the Kelvin sign (to 'k'), and keeps every other character. */
  lemma LowerSpec(s: string)
    ensures forall k :: 0 <= k < |s| ==> !('A' <= Lower(s)[k] <= 'Z')
    ensures forall k :: 0 <= k < |s| && 'A' <= s[k] <= 'Z' ==> Lower(s)[k] as int == s[k] as int + 32
    ensures forall k :: 0 <= k < |s| && s[k] == '\U{212A}' ==> Lower(s)[k] == 'k'
    ensures forall k :: 0 <= k < |s| && !('A' <= s[k] <= 'Z') && s[k] != '\U{212A}' ==> Lower(s)[k] == s[k]
  {
  }

  /** `s.startswith(p)`: only a text at least as long as `p` can start with
      it, and every text starts with the empty string. */
  predicate StartsWith(s: string, p: string)
    ensures StartsWith(s, p) ==> |p| <= |s|
    ensures p == [] ==> StartsWith(s, p)
  {
    |p| <= |s| && s[..|p|] == p
  }

  /** `startswith` compares position by position. */
  lemma StartsWithSpec(s: string, p: string)
    ensures StartsWith(s, p) <==> |p| <= |s| && forall k :: 0 <= k < |p| ==> s[k] == p[k]
  {
    if |p| <= |s| && forall k :: 0 <= k < |p| ==> s[k] == p[k] {
      assert s[..|p|] == p;
    }
  }

  // ---------------------------------------------------------------------------
  // Occurrences of a separator
  // ---------------------------------------------------------------------------

  /** `p` occurs in `s` starting at index `k`. */
  predicate OccursAt(s: string, p: string, k: int) {
    0 <= k && k + |p| <= |s| && s[k..k + |p|] == p
  }

  /** `p` does not occur anywhere in `s`. */
  predicate Free(s: string, p: string) {
    forall k :: 0 <= k <= |s| ==> !OccursAt(s, p, k)
  }

  /** `p` followed by the separator meets the separator first right after `p`:
      no occurrence of `sep` in `p + sep` starts inside `p`. */
  predicate CleanCut(p: string, sep: string) {
    forall k :: 0 <= k < |p| ==> !OccursAt(p + sep, sep, k)
  }

  lemma FreeTail(s: string, p: string)
    requires |s| > 0 && Free(s, p)
    ensures Free(s[1..], p)
  {
    forall k | OccursAt(s[1..], p, k)
      ensures false
    {
      assert s[1..][k..k + |p|] == s[k + 1..k + 1 + |p|];
      assert OccursAt(s, p, k + 1);
    }
  }

  lemma CleanCutTail(p: string, sep: string)
    requires |p| > 0 && CleanCut(p, sep)
    ensures CleanCut(p[1..], sep)
  {
    forall k | 0 <= k < |p[1..]| && OccursAt(p[1..] + sep, sep, k)
      ensures false
    {
      assert (p[1..] + sep) == (p + sep)[1..];
      assert (p + sep)[1..][k..k + |sep|] == (p + sep)[k + 1..k + 1 + |sep|];
      assert OccursAt(p + sep, sep, k + 1);
    }
  }

  /** A piece that has a clean cut before `sep` contains no `sep` itself. */
  lemma CleanCutIsFree(p: string, sep: string)
    requires |sep| > 0 && CleanCut(p, sep)
    ensures Free(p, sep)
  {
    forall k | OccursAt(p, sep, k)
      ensures false
    {
      assert (p + sep)[k..k + |sep|] == p[k..k + |sep|];
      assert OccursAt(p + sep, sep, k);
    }
  }

  /** `s` has no line break. */
  predicate SingleLine(s: string) {
    forall k :: 0 <= k < |s| ==> s[k] != '\n'
  }

  /** Two single lines joined by one line break hold no blank line, not even
      when a blank-line separator follows them. */
  lemma TwoLinesCleanCut(a: string, b: string)
    requires SingleLine(a) && SingleLine(b) && b != []
    ensures CleanCut(a + "\n" + b, "\n\n")
    ensures Free(a + "\n" + b, "\n\n")
  {
    var e := a + "\n" + b;
    var t := e + "\n\n";
    assert forall k :: 0 <= k < |a| ==> t[k] == a[k];
    assert t[|a| + 1] == b[0];
    assert forall k :: |a| < k < |e| ==> t[k] == b[k - |a| - 1];
    forall k | 0 <= k < |e|
      ensures !OccursAt(t, "\n\n", k)
    {
      assert t[k] != '\n' || t[k + 1] != '\n';
    }
    CleanCutIsFree(e, "\n\n");
  }

  /** A text that lacks one of the characters of `p` holds no occurrence of it. */
  lemma FreeOfMissingChar(s: string, p: string, i: nat)
    requires i < |p| && p[i] !in s
    ensures Free(s, p)
  {
    forall k | 0 <= k <= |s| - |p|
      ensures !OccursAt(s, p, k)
    {
      assert s[k + i] != p[i];
      assert s[k..k + |p|][i] == s[k + i];
    }
  }

  /** Putting a character that does not start `p` in front of a `p`-free text
      keeps it `p`-free. */
  lemma FreeCons(c: char, s: string, p: string)
    requires |p| > 0 && Free(s, p) && c != p[0]
    ensures Free([c] + s, p)
  {
    var t := [c] + s;
    forall k | 1 <= k <= |t| - |p|
      ensures !OccursAt(t, p, k)
    {
      assert t[k..k + |p|] == s[k - 1..k - 1 + |p|];
      assert !OccursAt(s, p, k - 1);
    }
  }

  /** A single line holds no line break to cut at, and is cut cleanly before
      the one that follows it. */
  lemma SingleLineCuts(s: string)
    requires SingleLine(s)
    ensures Free(s, "\n") && CleanCut(s, "\n")
  {
    forall k | 0 <= k < |s|
      ensures !OccursAt(s, "\n", k) && !OccursAt(s + "\n", "\n", k)
    {
      assert (s + "\n")[k] == s[k] != '\n';
    }
    assert !OccursAt(s, "\n", |s|);
  }

  // ---------------------------------------------------------------------------
  // split and join
  // ---------------------------------------------------------------------------

  /** `s.split(sep)` for a non-empty `sep`: cuts at every occurrence found by a
      left-to-right scan that resumes after each cut, so `"a\n\n\nb"` split on
      `"\n\n"` is `["a", "\nb"]` and `""` gives `[""]`. */
  function Split(s: string, sep: string): (r: seq<string>)
    requires |sep| > 0
    ensures |r| >= 1
    decreases |s|
  {
    if |s| < |sep| then [s]
    else if s[..|sep|] == sep then [""] + Split(s[|sep|..], sep)
    else
      var rest := Split(s[1..], sep);
      [[s[0]] + rest[0]] + rest[1..]
  }

  /** The first piece of a split is a prefix of the text. */
  lemma {:induction false} SplitHeadPrefix(s: string, sep: string)
    requires |sep| > 0
    ensures StartsWith(s, Split(s, sep)[0])
    decreases |s|
  {
    if |s| >= |sep| && s[..|sep|] != sep {
      var rest := Split(s[1..], sep);
      SplitHeadPrefix(s[1..], sep);
      var head := [s[0]] + rest[0];
      assert Split(s, sep)[0] == head;
      assert s[..|head|] == [s[0]] + s[1..][..|rest[0]|];
    }
  }

  /** `sep.join(ps)`. */
  function Join(ps: seq<string>, sep: string): (r: string)
    ensures |ps| > 0 ==> StartsWith(r, ps[0])
    decreases |ps|
  {
    if |ps| == 0 then ""
    else if |ps| == 1 then ps[0]
    else ps[0] + sep + Join(ps[1..], sep)
  }

  /** Joining one more piece adds a separator and the piece at the end. */
  lemma {:induction false} JoinSnoc(ps: seq<string>, p: string, sep: string)
    requires |ps| >= 1
    ensures Join(ps + [p], sep) == Join(ps, sep) + sep + p
    decreases |ps|
  {
    if |ps| == 1 {
      assert (ps + [p])[1..] == [p];
    } else {
      JoinSnoc(ps[1..], p, sep);
      assert (ps + [p])[1..] == ps[1..] + [p];
    }
  }

  lemma JoinConsHead(c: char, ps: seq<string>, sep: string)
    requires |ps| >= 1
    ensures Join([[c] + ps[0]] + ps[1..], sep) == [c] + Join(ps, sep)
  {
    var qs := [[c] + ps[0]] + ps[1..];
    if |ps| > 1 {
      assert qs[1..] == ps[1..];
    }
  }

  /** Joining the pieces of a split with the same separator restores the text. */
  lemma {:induction false} JoinSplit(s: string, sep: string)
    requires |sep| > 0
    ensures Join(Split(s, sep), sep) == s
    decreases |s|
  {
    if |s| < |sep| {
    } else if s[..|sep|] == sep {
      var rest := Split(s[|sep|..], sep);
      JoinSplit(s[|sep|..], sep);
      assert ([""] + rest)[1..] == rest;
      assert Join([""] + rest, sep) == "" + sep + Join(rest, sep);
      assert s == sep + s[|sep|..];
    } else {
      var rest := Split(s[1..], sep);
      JoinSplit(s[1..], sep);
      JoinConsHead(s[0], rest, sep);
      assert s == [s[0]] + s[1..];
    }
  }

  /** No piece of a split contains the separator. */
  lemma {:induction false} SplitPiecesFree(s: string, sep: string)
    requires |sep| > 0
    ensures forall i :: 0 <= i < |Split(s, sep)| ==> Free(Split(s, sep)[i], sep)
    decreases |s|
  {
    var r := Split(s, sep);
    if |s| < |sep| {
      forall k | OccursAt(s, sep, k) ensures false { }
    } else if s[..|sep|] == sep {
      SplitPiecesFree(s[|sep|..], sep);
      forall k | OccursAt("", sep, k) ensures false { }
      assert forall i :: 1 <= i < |r| ==> r[i] == Split(s[|sep|..], sep)[i - 1];
    } else {
      var rest := Split(s[1..], sep);
      SplitPiecesFree(s[1..], sep);
      assert forall i :: 1 <= i < |r| ==> r[i] == rest[i];
      var head := [s[0]] + rest[0];
      assert r[0] == head;
      SplitHeadPrefix(s, sep);
      forall k | OccursAt(head, sep, k)
        ensures false
      {
        if k > 0 {
          assert head[k..k + |sep|] == rest[0][k - 1..k - 1 + |sep|];
          assert OccursAt(rest[0], sep, k - 1);
        }
      }
    }
  }

  /** A character that does not start the separator, put in front of a piece
      that is followed by the separator in the text `u`, keeps the cut clean. */
  lemma CleanCutCons(c: char, p: string, sep: string, u: string)
    requires |sep| > 0 && CleanCut(p, sep)
    requires |p| + |sep| <= |u| && u[..|p| + |sep|] == p + sep
    requires ([c] + u)[..|sep|] != sep
    ensures CleanCut([c] + p, sep)
  {
    var head := [c] + p;
    assert (head + sep)[..|sep|] == ([c] + u)[..|sep|];
    forall k | 0 <= k < |head|
      ensures !OccursAt(head + sep, sep, k)
    {
      if k > 0 {
        assert (head + sep)[k..] == (p + sep)[k - 1..];
        assert !OccursAt(p + sep, sep, k - 1);
      }
    }
  }

  /** Every piece but the last is a leftmost cut: the first occurrence of the
      separator after the start of a piece is the one right after it.  With
      `SplitPiecesFree` and `JoinSplit` this fixes the pieces uniquely
      (`SplitJoin`). */
  lemma {:induction false} SplitPiecesCleanCut(s: string, sep: string)
    requires |sep| > 0
    ensures forall i :: 0 <= i < |Split(s, sep)| - 1 ==> CleanCut(Split(s, sep)[i], sep)
    decreases |s|
  {
    if |s| >= |sep| && s[..|sep|] == sep {
      var r, rest := Split(s, sep), Split(s[|sep|..], sep);
      SplitPiecesCleanCut(s[|sep|..], sep);
      forall i | 1 <= i < |r| - 1
        ensures CleanCut(r[i], sep)
      {
        assert r[i] == rest[i - 1];
      }
    } else if |s| >= |sep| {
      var r, rest := Split(s, sep), Split(s[1..], sep);
      SplitPiecesCleanCut(s[1..], sep);
      forall i | 0 <= i < |r| - 1
        ensures CleanCut(r[i], sep)
      {
        if i == 0 {
          SplitHeadCleanCut(s, sep);
        } else {
          assert r[i] == rest[i];
        }
      }
    }
  }

  /** The first piece is a clean cut when the text does not start with the
      separator and the rest's first piece is one. */
  lemma SplitHeadCleanCut(s: string, sep: string)
    requires |sep| > 0 && |s| >= |sep| && s[..|sep|] != sep
    requires |Split(s[1..], sep)| > 1 && CleanCut(Split(s[1..], sep)[0], sep)
    ensures CleanCut(Split(s, sep)[0], sep)
  {
    var rest := Split(s[1..], sep);
    JoinSplit(s[1..], sep);
    var j := Join(rest, sep);
    assert j == (rest[0] + sep) + Join(rest[1..], sep);
    assert j[..|rest[0]| + |sep|] == rest[0] + sep;
    assert [s[0]] + j == s;
    assert Split(s, sep)[0] == [s[0]] + rest[0];
    CleanCutCons(s[0], rest[0], sep, j);
  }

  /** Three line breaks in a row are cut at the first two: the leftmost
      occurrence wins and the third line break starts the next piece. */
  lemma SplitLeftmostExample()
    ensures Split("a\n\n\nb", "\n\n") == ["a", "\nb"]
  {
    var sep := "\n\n";
    var u := "\nb";
    assert u[1..] == "b";
    assert u[..2] != sep by {
      assert u[..2][1] == 'b';
    }
    assert Split("b", sep) == ["b"];
    assert [u[0]] + "b" == u;
    assert Split(u, sep) == [u];
    var t := "\n\n\nb";
    assert t[..2] == sep && t[2..] == u;
    assert Split(t, sep) == ["", u];
    var s := "a\n\n\nb";
    assert s[..2] != sep by {
      assert s[..2][0] == 'a';
    }
    assert s[1..] == t;
    assert [s[0]] + "" == "a";
  }

  /** A separator-free text is one piece. */
  lemma {:induction false} SplitFree(t: string, sep: string)
    requires |sep| > 0 && Free(t, sep)
    ensures Split(t, sep) == [t]
    decreases |t|
  {
    if |t| >= |sep| {
      assert !OccursAt(t, sep, 0);
      FreeTail(t, sep);
      SplitFree(t[1..], sep);
      assert [t[0]] + t[1..] == t;
    }
  }

  /** A piece with a clean cut is split off exactly. */
  lemma {:induction false} SplitCleanCut(p: string, sep: string, t: string)
    requires |sep| > 0 && CleanCut(p, sep)
    ensures Split(p + sep + t, sep) == [p] + Split(t, sep)
    decreases |p|
  {
    var s := p + sep + t;
    if p == [] {
      assert s == sep + t;
      assert s[..|sep|] == sep;
      assert s[|sep|..] == t;
    } else {
      assert !OccursAt(p + sep, sep, 0);
      assert (p + sep)[..|sep|] == s[..|sep|];
      CleanCutTail(p, sep);
      SplitCleanCut(p[1..], sep, t);
      assert s[1..] == p[1..] + sep + t;
      assert [p[0]] + p[1..] == p;
    }
  }

  /** Splitting a join gives back the pieces, when every piece but the last
      is cut cleanly and the last contains no separator. */
  lemma {:induction false} SplitJoin(ps: seq<string>, sep: string)
    requires |sep| > 0 && |ps| >= 1
    requires forall i :: 0 <= i < |ps| - 1 ==> CleanCut(ps[i], sep)
    requires Free(ps[|ps| - 1], sep)
    ensures Split(Join(ps, sep), sep) == ps
    decreases |ps|
  {
    if |ps| == 1 {
      SplitFree(ps[0], sep);
    } else {
      SplitJoin(ps[1..], sep);
      SplitCleanCut(ps[0], sep, Join(ps[1..], sep));
      assert [ps[0]] + ps[1..] == ps;
    }
  }

  // ---------------------------------------------------------------------------
  // replace
  // ---------------------------------------------------------------------------

  /** `s.replace(p, "")` for a non-empty `p`: removes every occurrence found by
      a left-to-right scan that resumes after each removal. */
  function RemoveAll(s: string, p: string): (r: string)
    requires |p| > 0
    ensures |r| <= |s|
    ensures |s| < |p| ==> r == s
    decreases |s|
  {
    if |s| < |p| then s
    else if s[..|p|] == p then RemoveAll(s[|p|..], p)
    else [s[0]] + RemoveAll(s[1..], p)
  }

  /** Where no occurrence starts, removal keeps the first character and goes
      on with the rest. */
  lemma RemoveAllStep(s: string, p: string)
    requires |p| > 0 && s != [] && !OccursAt(s, p, 0)
    ensures RemoveAll(s, p) == [s[0]] + RemoveAll(s[1..], p)
  {
    if |s| < |p| {
      assert [s[0]] + s[1..] == s;
    }
  }

  /** Dropping the first character of the leading part keeps it free of
      starting occurrences. */
  lemma NoOccurrenceTail(x: string, y: string, p: string)
    requires x != []
    requires forall k :: 0 <= k < |x| ==> !OccursAt(x + y, p, k)
    ensures forall k :: 0 <= k < |x| - 1 ==> !OccursAt(x[1..] + y, p, k)
  {
    var s, t := x + y, x[1..] + y;
    assert s[1..] == t;
    forall k | 0 <= k < |x| - 1
      ensures !OccursAt(t, p, k)
    {
      if k + |p| <= |t| {
        assert t[k..k + |p|] == s[k + 1..k + 1 + |p|];
      }
      assert !OccursAt(s, p, k + 1);
    }
  }

  /** Removal passes over a leading part in which no occurrence starts. */
  lemma {:induction false} RemoveAllKeepsPrefix(x: string, y: string, p: string)
    requires |p| > 0
    requires forall k :: 0 <= k < |x| ==> !OccursAt(x + y, p, k)
    ensures RemoveAll(x + y, p) == x + RemoveAll(y, p)
    decreases |x|
  {
    if x != [] {
      var ry := RemoveAll(y, p);
      NoOccurrenceTail(x, y, p);
      RemoveAllKeepsPrefix(x[1..], y, p);
      assert RemoveAll(x[1..] + y, p) == x[1..] + ry;
      RemoveAllStep(x + y, p);
      assert (x + y)[1..] == x[1..] + y;
      assert RemoveAll(x + y, p) == [x[0]] + (x[1..] + ry);
      assert [x[0]] + (x[1..] + ry) == x + ry;
    } else {
      assert x + y == y;
    }
  }

  /** A marker-free text followed by whitespace is left as it is, when the
      marker does not end with whitespace. */
  lemma RemoveAllSpaceTail(m: string, t: string, after: string)
    requires AllSpace(after)
    requires |m| > 0 && !IsSpace(m[0]) && !IsSpace(m[|m| - 1])
    requires Free(t, m)
    ensures RemoveAll(t + after, m) == t + after
  {
    forall k | 0 <= k < |t|
      ensures !OccursAt(t + after, m, k)
    {
      if k + |m| <= |t| {
        assert (t + after)[k..k + |m|] == t[k..k + |m|];
        assert !OccursAt(t, m, k);
      } else if k + |m| <= |t + after| {
        assert (t + after)[k..k + |m|][|m| - 1] == after[k + |m| - 1 - |t|];
      }
    }
    RemoveAllKeepsPrefix(t, after, m);
    FreeOfMissingChar(after, m, 0);
    RemoveAllFree(after, m);
  }

  /** Removing a marker that neither starts nor ends with whitespace from
      `before + marker + t + after`, with whitespace around and no marker in
      `t`, removes just that one marker. */
  lemma RemoveAllPadded(before: string, m: string, t: string, after: string)
    requires AllSpace(before) && AllSpace(after)
    requires |m| > 0 && !IsSpace(m[0]) && !IsSpace(m[|m| - 1])
    requires Free(t, m)
    ensures RemoveAll(before + m + t + after, m) == before + t + after
  {
    var rest := m + t + after;
    assert before + m + t + after == before + rest;
    forall k | 0 <= k < |before|
      ensures !OccursAt(before + rest, m, k)
    {
      assert (before + rest)[k] == before[k];
      if k + |m| <= |before + rest| {
        assert (before + rest)[k..k + |m|][0] == before[k];
      }
    }
    RemoveAllKeepsPrefix(before, rest, m);
    assert rest[..|m|] == m && rest[|m|..] == t + after;
    RemoveAllSpaceTail(m, t, after);
    assert before + (t + after) == before + t + after;
  }

  /** Removal only drops characters: what is left is no longer than the text
      and every character of it is one of the text's. */
  lemma {:induction false} RemoveAllChars(s: string, p: string)
    requires |p| > 0
    ensures |RemoveAll(s, p)| <= |s|
    ensures forall k :: 0 <= k < |RemoveAll(s, p)| ==> RemoveAll(s, p)[k] in s
    decreases |s|
  {
    if |s| < |p| {
    } else if s[..|p|] == p {
      RemoveAllChars(s[|p|..], p);
      var r := RemoveAll(s, p);
      forall k | 0 <= k < |r| ensures r[k] in s {
        assert r[k] in s[|p|..];
      }
    } else {
      RemoveAllChars(s[1..], p);
      var r := RemoveAll(s, p);
      forall k | 0 <= k < |r| ensures r[k] in s {
        if k > 0 {
          assert r[k] in s[1..];
        }
      }
    }
  }

  function Concat(ps: seq<string>): string {
    Join(ps, "")
  }

  /** `s.replace(p, "")` is `"".join(s.split(p))`: removal and split scan for
      the same occurrences. */
  lemma {:induction false} RemoveAllIsConcatOfSplit(s: string, p: string)
    requires |p| > 0
    ensures RemoveAll(s, p) == Concat(Split(s, p))
    decreases |s|
  {
    if |s| < |p| {
    } else if s[..|p|] == p {
      var rest := Split(s[|p|..], p);
      RemoveAllIsConcatOfSplit(s[|p|..], p);
      assert ([""] + rest)[1..] == rest;
    } else {
      var rest := Split(s[1..], p);
      RemoveAllIsConcatOfSplit(s[1..], p);
      JoinConsHead(s[0], rest, "");
    }
  }

  /** Removing a separator-free text's occurrences leaves it as it is. */
  lemma RemoveAllFree(s: string, p: string)
    requires |p| > 0 && Free(s, p)
    ensures RemoveAll(s, p) == s
  {
    SplitFree(s, p);
    RemoveAllIsConcatOfSplit(s, p);
  }

  /** `s.replace(a, b)` for single characters. */
  function ReplaceChar(s: string, a: char, b: char): (r: string)
    ensures |r| == |s|
    ensures forall k :: 0 <= k < |s| ==> r[k] == (if s[k] == a then b else s[k])
  {
    if s == [] then [] else [if s[0] == a then b else s[0]] + ReplaceChar(s[1..], a, b)
  }

  // ---------------------------------------------------------------------------
  // str(n)
  // ---------------------------------------------------------------------------

  predicate IsDigit(c: char) {
    '0' <= c <= '9'
  }

  function DigitChar(d: nat): (c: char)
    requires d < 10
    ensures IsDigit(c)
  {
    ('0' as int + d) as char
  }

  /** `str(n)`: decimal digits, most significant first, no leading zero. */
  function NatToString(n: nat): (r: string)
    ensures |r| >= 1
    ensures forall k :: 0 <= k < |r| ==> IsDigit(r[k])
    ensures r[0] == '0' ==> n == 0
    decreases n
  {
    if n < 10 then [DigitChar(n)] else NatToString(n / 10) + [DigitChar(n % 10)]
  }

  /** The value of a string of decimal digits, read most significant first. */
  function DecimalValue(s: string): nat
    requires forall k :: 0 <= k < |s| ==> IsDigit(s[k])
  {
    if s == [] then 0
    else
      assert IsDigit(s[|s| - 1]);
      DecimalValue(s[..|s| - 1]) * 10 + (s[|s| - 1] as int - '0' as int)
  }

  /** Reading the decimal text of `n` gives `n` back. */
  lemma {:induction false} DecimalRoundTrip(n: nat)
    ensures DecimalValue(NatToString(n)) == n
    decreases n
  {
    var s := NatToString(n);
    if n >= 10 {
      DecimalRoundTrip(n / 10);
      assert s[..|s| - 1] == NatToString(n / 10);
    }
  }
}
